=== FILE: README.md ===
# Content generator server logic, modelled in Dafny

This project models the server side of an AI content-generation service.
Signed-in users submit a prompt, a tone and an audience. They get back a
six-format marketing document: a blog post, a tweet thread, an Instagram
caption, a LinkedIn post, a Facebook ad and a Google ad. Free accounts may
generate 10 times. A verified payment moves an account to the pro plan,
which has no quota. Each user's history is capped at 100 records.

The model covers:

- the record store of `lib/db.ts`, as two immutable sequences (`Db.Store`);
- the request schemas of `lib/validations.ts` (`Validations`);
- each API route as a pure function from the session, the request body,
  the store and the outside world (`Http.Env`) to a response and a new store.
  This covers generate, register, login, current user, payment verification
  and the three history routes;
- the request guard of `proxy.ts`, as a pure decision (`Proxy`);
- one dispatch over all routes, and invariants that hold of every store
  reached by handling requests one at a time (`Server`).

The outside world appears only as parameters, collected in `Http.Env`:

- the email syntax check;
- bcrypt hashing and comparison;
- token signing;
- HMAC-SHA256;
- the two secrets read from the environment;
- the language-model call, as a function returning content or an error message;
- the fresh UUID and the current timestamp.

The session is the user id that token verification produced, or `None`.
A request body is `Err(message)` when JSON parsing threw.

Files: `base.dfy` (Option, Result), `types.dfy` (types/index.ts), `db.dfy`,
`validations.dfy`, `http.dfy`, `generate_route.dfy`, `register_route.dfy`,
`login_route.dfy`, `me_route.dfy`, `payment_route.dfy`, `history_routes.dfy`,
`proxy.dfy`, `server.dfy`.

Notes on what the code does, which the model follows:

- The generation counter is raised for pro accounts too, not only for free ones.
- It is set to the loaded count plus one, rather than incremented in the store.
- The API-key check sits in the route. It runs after the quota check and
  before the body is parsed, and answers 503.
- Validation failures report the schema's first message, not a field name.
- The model's reply is accepted after a bare JSON parse, with no shape check.
- There is no separate storage-error kind: a thrown error becomes a 500.

## Model

| member | source | states |
|---|---|---|
| Types.ParseTone | lib/validations.ts:25-27 | a string is accepted as a tone exactly when it is one of the six enum literals, and the accepted tone's name is that string |
| Db.FindUser | lib/db.ts:59 | the result is the first position whose user matches the key, and None exactly when no user matches |
| Db.FindUserIsFirst | lib/db.ts:59 | a matching position with no match before it is the one the lookup returns |
| Db.CreateUser | lib/db.ts:29-45 | exactly one user is appended with the given email, name and hash, the fresh id and timestamp, plan free and count 0; existing users and all generations are unchanged |
| Db.GetUserByEmail | lib/db.ts:47-50 | returns the first user whose email equals the given one ignoring case, and None exactly when no email matches |
| Db.GetUserById | lib/db.ts:52-55 | returns the first user with that id, and None exactly when no user has it |
| Db.UpdateUser | lib/db.ts:57-64 | an unknown id gives None and leaves the store as it was; otherwise only the first user with the id is replaced, by the patch merged over it, at its position |
| Db.UpdateThenGet | lib/db.ts:57-64 | after an update that keeps the id, looking the id up returns the merged user |
| Db.PatchesTouchOneField | lib/db.ts:61 | a count patch changes only the counter and a plan patch only the plan |
| Db.FilterKeepsAllIff | lib/db.ts:110-112 | the filtered list is as long as the input exactly when every record is kept, which is how delete decides whether it removed anything |
| Db.SaveGeneration | lib/db.ts:68-87 | the returned record carries the fresh id, the timestamp and all supplied fields; users are unchanged |
| Db.SaveGenerationCapsHistory | lib/db.ts:79-83 | the saver's records become the first 100 of the new record followed by their previous records, so the new record comes first and the count is min(old + 1, 100) |
| Db.SaveGenerationKeepsOthers | lib/db.ts:81 | every other user's records, and all non-saver records together, are unchanged and in their original order |
| Db.SaveGenerationPreservesCap | lib/db.ts:79-83 | if every user has at most 100 records before a save, the same holds after it |
| Db.SaveRepeatedlyCount | lib/db.ts:79-83 | n saves for one user leave min(old + n, 100) records for them, so 101 saves from empty leave 100, and another user's records are untouched |
| Db.GetGenerationsByUserId | lib/db.ts:89-101 | the listing has one line per record of the user, in stored order, each with that record's id, prompt, tone, audience and timestamp and its blog post's title |
| Db.HistoryAfterSave | lib/db.ts:79-100 | right after a save, the saver's listing is non-empty, at most 100 long, and starts with the new record titled by its blog post |
| Db.GetGenerationById | lib/db.ts:103-106 | returns the first stored record with that id, and None exactly when no record has it |
| Db.SaveThenGetById | lib/db.ts:68-87 | a record saved under an id no stored record carries is what looking that id up returns afterwards |
| Db.DeleteGeneration | lib/db.ts:108-115 | reports true exactly when some record has both the id and the owner; then exactly those records are filtered out, otherwise the store is unchanged |
| Db.DeleteRemovesExactly | lib/db.ts:111 | after a delete no record with that id and owner remains, every other record remains, and users are unchanged |
| Db.DeletePreservesCap | lib/db.ts:108-115 | a delete never lets a history grow past 100 records |
| Validations.ValidateGenerate | lib/validations.ts:20-32 | the body is accepted exactly when prompt length is in [10, 1000], the tone is one of the six literals and audience length is in [3, 200]; otherwise the message is that of the first failing field in the order prompt, tone, audience |
| Validations.ValidateRegister | lib/validations.ts:3-13 | accepted exactly when name length is in [2, 50], the email passes the email check and password length is in [8, 100]; otherwise the first failing field in the order name, email, password gives the message |
| Validations.ValidateLogin | lib/validations.ts:15-18 | accepted exactly when the email passes and the password is non-empty; otherwise the email message comes before the password message |
| Validations.LoginPasswordUnbounded | lib/validations.ts:9-17 | a password longer than 100 characters passes login validation, though registration rejects it |
| GenerateRoute.Generate | app/api/generate/route.ts:9-62 | no session gives 401 and an unknown account 404; a free account at 10 or more gives 429 with limitReached. Next a missing or placeholder key gives 503, then an unparsable body 500 and an invalid body 400 with the first issue. A failed model call gives 500. Each error carries its message; a failed parse or model call reports its own error message. Only a 201 changes the store, and 201 happens exactly when every check passed and the model answered. No answer sets a cookie |
| GenerateRoute.Commit | app/api/generate/route.ts:52-56 | answers 201 with the stamped record. The loaded account's counter becomes its loaded value plus one at its position. The user's history becomes the first 100 of the new record and the old history. Other users' records and the account lookup are consistent with this |
| GenerateRoute.QuotaCheckedFirst | app/api/generate/route.ts:21-29 | a free account at the limit gets 429 whatever the body, key or model, and nothing is written |
| GenerateRoute.ValidationBeforeSynthesis | app/api/generate/route.ts:38-50 | with an invalid body the answer does not depend on the model, and nothing is written |
| GenerateRoute.GenerateSuccess | app/api/generate/route.ts:48-56 | when every check passes and the model answers, the answer is 201 and its effect is exactly the save-then-count step for the loaded account |
| GenerateRoute.CommitEvolves | app/api/generate/route.ts:52-54 | the save-then-count step only raises one counter, and keeps free accounts within the limit when the account was below it |
| GenerateRoute.GenerateEvolves | app/api/generate/route.ts:21-54 | a generate request never lowers a counter, changes a plan or removes an account, and never takes a free account past 10 |
| GenerateRoute.NextRequestAfterLastFreeGenerationIsRefused | app/api/generate/route.ts:21-54 | a free account at 9 whose request passes every check and gets the model's answer is granted it (201), and gets 429 on its next request |
| RegisterRoute.Register | app/api/auth/register/route.ts:6-51 | an unparsable body gives 500 and an invalid body 400 with the first issue; an email already stored, ignoring case, gives 409. Otherwise exactly one account is appended: free, count 0, holding the password's hash. The cookie carries a token for the new id, and the body has id, email, name, plan and count but no hash |
| RegisterRoute.SecondRegistrationRefused | app/api/auth/register/route.ts:20-26 | registering again with the same email in any letter case gives 409 and adds nothing |
| LoginRoute.Login | app/api/auth/login/route.ts:6-54 | never writes. An invalid body gives 400 with the first issue. An unknown email and a wrong password both give 401 "Invalid email or password.". Success sets a token for the found account's id and returns its public fields; no other answer sets a cookie |
| LoginRoute.LoginFailuresIndistinguishable | app/api/auth/login/route.ts:20-34 | the response to an unknown email equals the response to a wrong password |
| MeRoute.Me | app/api/auth/me/route.ts:5-31 | never writes; no session gives 401, an unknown account 404, otherwise 200 with id, email, name, plan, count and creation time of the account and no hash |
| PaymentRoute.VerifyPayment | app/api/payment/verify/route.ts:6-44 | no session gives 401. A missing or empty field gives 400 "Missing payment details", a missing secret 500, and a signature other than the HMAC of order id, "\|" and payment id 400. Only success writes. A free account found for the session is the only account written, at its position, with its plan set to pro. An account already pro, or a missing account, means no write |
| PaymentRoute.VerifyPaymentIdempotent | app/api/payment/verify/route.ts:30-37 | repeating a verification on the resulting store gives the same answer and writes nothing more |
| HistoryRoutes.ListHistory | app/api/history/route.ts:5-18 | no session gives 401; otherwise the listing has one line per record of the signed-in user, in stored order, with every field of the store's listing (id, prompt, tone, audience, blog title, timestamp); nothing is written and no cookie is set |
| HistoryRoutes.GetHistoryItem | lib/db.ts:103-106 | the item handler built on this lookup (lines 7-26 of app/api/history/[id]/route.ts): no session gives 401; a 200 only ever returns a stored record with that id owned by the caller; the owner of the record the lookup finds gets 200 with it; a missing or foreign record gives the same 404 |
| HistoryRoutes.DeleteHistoryItem | lib/db.ts:108-115 | the delete handler built on this function (lines 28-47 of app/api/history/[id]/route.ts): no session gives 401; it succeeds exactly when the caller owns a record with that id, and then the store is exactly the one the store's delete leaves, which removes those records and keeps the rest in order; otherwise 404 and no change |
| HistoryRoutes.ForeignDeleteIsNotFound | lib/db.ts:111-113 | through the delete handler (lines 36-40 of app/api/history/[id]/route.ts), deleting a record owned by someone else answers the plain 404 and the record stays |
| Proxy.SomePrefix | proxy.ts:27 | true exactly when the path starts with one of the listed routes |
| Proxy.SomeEqual | proxy.ts:36 | true exactly when the path is one of the listed routes |
| Proxy.IsAuthenticated | proxy.ts:22-24 | no cookie means unauthenticated; otherwise authenticated exactly when the token is non-empty and verifies |
| Proxy.Decide | proxy.ts:26-42 | unauthenticated paths under /dashboard or /history redirect to login with from set to the path. Authenticated requests for exactly /login or /register redirect to the dashboard. Everything else passes through |
| Proxy.Guard | proxy.ts:20-43 | the decision is the one for an authenticated request exactly when the cookie is present, non-empty and verifies; a request without the cookie is decided as unauthenticated |
| Proxy.RouteListsDisjoint | proxy.ts:8-9 | no path is both protected and an auth page, so at most one redirect applies |
| Proxy.ExactVersusPrefix | proxy.ts:27-39 | /login/x passes through even when authenticated, while /dashboard/settings redirects to login when unauthenticated |
| Server.GeneratePreservesCap | app/api/generate/route.ts:52 | a generate request keeps every history within 100 records |
| Server.HandleKeepsInvariants | lib/db.ts:57-64 | no request of any kind removes an account, changes its identity or credentials, moves it from pro to free or lowers its counter; quota and cap stay respected |
| Server.RunKeepsInvariants | app/api/generate/route.ts:21-29 | over any sequence of requests handled one at a time, accounts only evolve forward, and from a healthy store no free account passes 10 generations and no history passes 100 |
| Server.RegisterThenLogin | app/api/auth/login/route.ts:20-48 | after registering, signing in with the same email and password gives 200 for the new account, given a password check that accepts the stored hash |
| Server.RegisterThenMe | app/api/auth/me/route.ts:12-26 | after registering with an id new to the store, the current-user endpoint shows the account as free with count 0 |
| Server.UpgradeLiftsQuota | app/api/generate/route.ts:21 | a complete payment with a genuine signature for an existing account is answered 200, and whatever requests follow one at a time, a generate request from that account never gets 429 |

## Left out

- File I/O: reading and writing the two JSON files, creating the data directory, and falling back to an empty list when a read fails. The store is in memory, and a failing write is not modelled.
- The language-model call in lib/claude.ts is an uninterpreted function of prompt, tone and audience. This leaves out the prompt text and the client settings. It also leaves out the function's own key check, which the route's earlier check makes unreachable, and the empty and malformed reply errors, which appear only as error messages.
- The shape of the model's reply is trusted. A parsed reply without a blog post would make the history listing throw, and content is modelled as the typed six-section document.
- Hashing, password comparison, token signing and verification, token expiry and HMAC-SHA256 are parameters with no properties assumed. RegisterThenLogin states its bcrypt assumption as a precondition.
- Db.GetUserByEmail: letter-case folding covers ASCII letters only. JavaScript's `toLowerCase` also folds other scripts.
- Validations.ValidateGenerate: lengths count characters, while JavaScript counts UTF-16 code units, so characters outside the Basic Multilingual Plane count once here and twice in the source.
- Validations.ValidateRegister: name and password lengths count characters rather than UTF-16 code units, as for ValidateGenerate.
- Generation counters are unbounded naturals. In the source they are JavaScript numbers, so adding one loses precision past 2^53; that count is out of reach in practice.
- Request fields are strings, or optional strings in the payment body. A missing or non-string field, and the message the schema library gives for it, are not modelled.
- A non-string value in a payment field, which JavaScript would turn into text, is not modelled.
- Responses carry the session cookie's value only. Its options (httpOnly, sameSite, maxAge, path) and the logout route, which only clears it, are left out.
- The proxy's matcher configuration, which limits the guard to the four route families, is routing setup. `Proxy.Decide` is stated for every path.
- Concurrency: each request is one atomic step. So the race between the quota check at app/api/generate/route.ts:21 and the counter update at line 54 cannot occur in the model. `Server.RunKeepsInvariants` holds for requests handled one at a time only.
- Order creation with the payment gateway (app/api/payment/create-order/route.ts) is a network client.
- The UI under app/ and components/ is presentation.
- Logging of errors is left out.
- Records store the tone as the enum, not its string. Only validated tones are ever written.

=== FILE: base.dfy ===
/** Failure-carrying wrappers shared by every module of the model.
    `Option` stands for the source's `T | null` returns, `Result` for a
    value-or-thrown-error whose error is the message the route reports. */
module Base {

  datatype Option<+T> = None | Some(value: T)

  datatype Result<+T> = Ok(value: T) | Err(error: string)

}

=== FILE: db.dfy ===
/** The record store of lib/db.ts: the users file and the generations file
    become two in-memory sequences, and each operation returns its result
    together with the store it leaves behind. */
module Db {
  import opened Base
  import opened Types

  /** Per-user history length kept by `SaveGeneration`. */
  const HISTORY_CAP: nat := 100

  datatype Store = Store(users: seq<User>, generations: seq<ContentGeneration>)

  /** The value an operation returns and the store after it. */
  datatype Write<+T> = Write(value: T, store: Store)

  // ── Users ──────────────────────────────────────────────────────────────

  /** `toLowerCase` on one character, restricted to ASCII letters. */
  function LowerChar(c: char): char
  {
    if 'A' <= c <= 'Z' then (c as int - 'A' as int + 'a' as int) as char else c
  }

  function Lower(s: string): (r: string)
    ensures |r| == |s|
  {
    seq(|s|, i requires 0 <= i < |s| => LowerChar(s[i]))
  }

  /** The case-insensitive email comparison used for lookups. */
  predicate SameEmail(a: string, b: string)
  {
    Lower(a) == Lower(b)
  }

  /** How a user is looked up: by id, or by email ignoring case. */
  datatype UserKey = ById(id: string) | ByEmail(email: string)

  predicate Matches(key: UserKey, u: User)
  {
    match key
    case ById(id) => u.id == id
    case ByEmail(email) => SameEmail(u.email, email)
  }

  /** `Array.prototype.findIndex` over the users: the first position whose
      user matches the key. */
  function FindUser(users: seq<User>, key: UserKey): (r: Option<nat>)
    ensures r.Some? ==> r.value < |users| && Matches(key, users[r.value])
    ensures r.Some? ==> forall j :: 0 <= j < r.value ==> !Matches(key, users[j])
    ensures r.None? <==> forall j :: 0 <= j < |users| ==> !Matches(key, users[j])
    decreases |users|
  {
    if |users| == 0 then None
    else if Matches(key, users[0]) then Some(0)
    else
      match FindUser(users[1..], key)
      case None => None
      case Some(i) => Some(i + 1)
  }

  /** `createUser`: appends a fresh free account with no generations. */
  function CreateUser(s: Store, email: string, name: string, passwordHash: string,
                      freshId: string, now: string): (r: Write<User>)
    ensures r.store.users == s.users + [r.value]
    ensures r.value.id == freshId && r.value.createdAt == now
    ensures r.value.email == email && r.value.name == name && r.value.passwordHash == passwordHash
    ensures r.value.plan == Free && r.value.generationsCount == 0
    ensures r.store.generations == s.generations
  {
    var u := User(freshId, email, name, passwordHash, now, Free, 0);
    Write(u, s.(users := s.users + [u]))
  }

  /** `getUserByEmail`: the first user whose email equals `email` ignoring case. */
  function GetUserByEmail(s: Store, email: string): (r: Option<User>)
    ensures r.None? <==> forall j :: 0 <= j < |s.users| ==> !SameEmail(s.users[j].email, email)
    ensures r.Some? ==> exists i :: 0 <= i < |s.users| && s.users[i] == r.value
                                    && SameEmail(r.value.email, email)
                                    && forall j :: 0 <= j < i ==> !SameEmail(s.users[j].email, email)
  {
    match FindUser(s.users, ByEmail(email))
    case None => None
    case Some(i) => Some(s.users[i])
  }

  /** `getUserById`: the first user carrying `id`. */
  function GetUserById(s: Store, id: string): (r: Option<User>)
    ensures r.None? <==> forall j :: 0 <= j < |s.users| ==> s.users[j].id != id
    ensures r.Some? ==> exists i :: 0 <= i < |s.users| && s.users[i] == r.value
                                    && r.value.id == id
                                    && forall j :: 0 <= j < i ==> s.users[j].id != id
  {
    match FindUser(s.users, ById(id))
    case None => None
    case Some(i) => Some(s.users[i])
  }

  /** A `Partial<User>`: the fields an update supplies. */
  datatype UserPatch = UserPatch(
    id: Option<string>,
    email: Option<string>,
    name: Option<string>,
    passwordHash: Option<string>,
    createdAt: Option<string>,
    plan: Option<Plan>,
    generationsCount: Option<nat>)

  function CountPatch(n: nat): UserPatch
  {
    UserPatch(None, None, None, None, None, None, Some(n))
  }

  function PlanPatch(p: Plan): UserPatch
  {
    UserPatch(None, None, None, None, None, Some(p), None)
  }

  function Override<T>(current: T, supplied: Option<T>): T
  {
    if supplied.Some? then supplied.value else current
  }

  /** `{ ...user, ...updates }`. */
  function Apply(u: User, p: UserPatch): User
  {
    User(Override(u.id, p.id), Override(u.email, p.email), Override(u.name, p.name),
         Override(u.passwordHash, p.passwordHash), Override(u.createdAt, p.createdAt),
         Override(u.plan, p.plan), Override(u.generationsCount, p.generationsCount))
  }

  /** `updateUser`: merges the patch into the first user carrying `id`; with
      no such user it returns `None` and writes nothing. */
  function UpdateUser(s: Store, id: string, patch: UserPatch): (r: Write<Option<User>>)
    ensures r.value.None? <==> forall j :: 0 <= j < |s.users| ==> s.users[j].id != id
    ensures r.value.None? ==> r.store == s
    ensures r.value.Some? ==>
              exists i :: 0 <= i < |s.users| && s.users[i].id == id
                          && (forall j :: 0 <= j < i ==> s.users[j].id != id)
                          && r.value.value == Apply(s.users[i], patch)
                          && r.store.users == s.users[i := r.value.value]
    ensures r.store.generations == s.generations
  {
    match FindUser(s.users, ById(id))
    case None => Write(None, s)
    case Some(i) =>
      var u := Apply(s.users[i], patch);
      Write(Some(u), s.(users := s.users[i := u]))
  }

  /** The first matching position is determined by the matching property. */
  lemma FindUserIsFirst(users: seq<User>, key: UserKey, i: nat)
    requires i < |users| && Matches(key, users[i])
    requires forall j :: 0 <= j < i ==> !Matches(key, users[j])
    ensures FindUser(users, key) == Some(i)
  {
    assert FindUser(users, key).Some?;
  }

  /** Reading a user back after updating it gives the merged record, as long
      as the patch keeps the id. */
  lemma UpdateThenGet(s: Store, id: string, patch: UserPatch)
    requires patch.id.None?
    ensures UpdateUser(s, id, patch).value.Some? ==>
              GetUserById(UpdateUser(s, id, patch).store, id) == UpdateUser(s, id, patch).value
  {
    var r := UpdateUser(s, id, patch);
    if r.value.Some? {
      var i := FindUser(s.users, ById(id)).value;
      var users' := r.store.users;
      assert users' == s.users[i := Apply(s.users[i], patch)];
      assert forall j :: 0 <= j < i ==> users'[j] == s.users[j];
      FindUserIsFirst(users', ById(id), i);
    }
  }

  /** A count patch replaces the counter and nothing else; a plan patch the plan. */
  lemma PatchesTouchOneField(n: nat, p: Plan)
    ensures forall u :: Apply(u, CountPatch(n)) == u.(generationsCount := n)
    ensures forall u :: Apply(u, PlanPatch(p)) == u.(plan := p)
  {
  }

  /** How an account may change from one store to the next: nothing is
      removed or reordered, identity and credentials stay, the plan only
      goes from free to pro and the counter never decreases. */
  ghost predicate Evolves(before: seq<User>, after: seq<User>)
  {
    && |before| <= |after|
    && forall i :: 0 <= i < |before| ==>
         && after[i].id == before[i].id
         && after[i].email == before[i].email
         && after[i].name == before[i].name
         && after[i].passwordHash == before[i].passwordHash
         && after[i].createdAt == before[i].createdAt
         && (before[i].plan == Pro ==> after[i].plan == Pro)
         && before[i].generationsCount <= after[i].generationsCount
  }

  lemma EvolvesTransitive(a: seq<User>, b: seq<User>, c: seq<User>)
    requires Evolves(a, b) && Evolves(b, c)
    ensures Evolves(a, c)
  {
  }

  // ── Generations ────────────────────────────────────────────────────────

  /** The three `filter` callbacks of lib/db.ts, as data so that equal
      filters are equal terms. */
  datatype Sel =
    | OwnedBy(user: string)                 // g.userId === userId
    | NotOwnedBy(user: string)              // g.userId !== userId
    | NotKeyed(id: string, user: string)    // !(g.id === id && g.userId === userId)

  predicate Keep(sel: Sel, g: ContentGeneration)
  {
    match sel
    case OwnedBy(u) => g.userId == u
    case NotOwnedBy(u) => g.userId != u
    case NotKeyed(id, u) => !(g.id == id && g.userId == u)
  }

  /** `Array.prototype.filter`: the kept records, in their stored order. */
  function Filter(gs: seq<ContentGeneration>, sel: Sel): (r: seq<ContentGeneration>)
    ensures |r| <= |gs|
    ensures forall g :: g in r ==> g in gs && Keep(sel, g)
    ensures forall g :: g in gs && Keep(sel, g) ==> g in r
    decreases |gs|
  {
    if |gs| == 0 then []
    else if Keep(sel, gs[0]) then [gs[0]] + Filter(gs[1..], sel)
    else Filter(gs[1..], sel)
  }

  /** `slice(0, n)`. */
  function Take(gs: seq<ContentGeneration>, n: nat): (r: seq<ContentGeneration>)
    ensures |r| == if |gs| <= n then |gs| else n
    ensures r <= gs
  {
    if |gs| <= n then gs else gs[..n]
  }

  /** The records of one user, in stored order. */
  function Owned(gs: seq<ContentGeneration>, u: string): seq<ContentGeneration>
  {
    Filter(gs, OwnedBy(u))
  }

  lemma {:induction false} FilterConcat(a: seq<ContentGeneration>, b: seq<ContentGeneration>, sel: Sel)
    ensures Filter(a + b, sel) == Filter(a, sel) + Filter(b, sel)
    decreases |a|
  {
    if |a| == 0 {
      assert a + b == b;
    } else {
      assert (a + b)[1..] == a[1..] + b;
      FilterConcat(a[1..], b, sel);
    }
  }

  /** A filter that keeps everything is the identity. */
  lemma {:induction false} FilterAll(gs: seq<ContentGeneration>, sel: Sel)
    requires forall g :: g in gs ==> Keep(sel, g)
    ensures Filter(gs, sel) == gs
    decreases |gs|
  {
    if |gs| > 0 {
      assert gs[0] in gs;
      assert forall g :: g in gs[1..] ==> g in gs;
      FilterAll(gs[1..], sel);
    }
  }

  /** A filter that keeps nothing is empty. */
  lemma {:induction false} FilterNone(gs: seq<ContentGeneration>, sel: Sel)
    requires forall g :: g in gs ==> !Keep(sel, g)
    ensures Filter(gs, sel) == []
    decreases |gs|
  {
    if |gs| > 0 {
      assert gs[0] in gs;
      assert forall g :: g in gs[1..] ==> g in gs;
      FilterNone(gs[1..], sel);
    }
  }

  /** The filter keeps every record exactly when its result is as long as its input. */
  lemma {:induction false} FilterKeepsAllIff(gs: seq<ContentGeneration>, sel: Sel)
    ensures |Filter(gs, sel)| == |gs| <==> forall g :: g in gs ==> Keep(sel, g)
    decreases |gs|
  {
    if |gs| > 0 {
      assert forall g :: g in gs[1..] ==> g in gs;
      FilterKeepsAllIff(gs[1..], sel);
      if Keep(sel, gs[0]) {
        assert forall g :: g in gs <==> g == gs[0] || g in gs[1..];
      }
    }
  }

  /** Filtering with a weaker selector first changes nothing. */
  lemma {:induction false} FilterNarrow(gs: seq<ContentGeneration>, outer: Sel, inner: Sel)
    requires forall g :: Keep(inner, g) ==> Keep(outer, g)
    ensures Filter(Filter(gs, outer), inner) == Filter(gs, inner)
    decreases |gs|
  {
    if |gs| > 0 {
      FilterNarrow(gs[1..], outer, inner);
    }
  }

  /** The record `saveGeneration` is given: everything but id and timestamp. */
  datatype NewGeneration = NewGeneration(
    userId: string,
    prompt: string,
    tone: Tone,
    audience: string,
    content: GeneratedContent)

  function Stamp(g: NewGeneration, freshId: string, now: string): ContentGeneration
  {
    ContentGeneration(freshId, g.userId, g.prompt, g.tone, g.audience, g.content, now)
  }

  /** `saveGeneration`: puts the new record in front, then keeps every other
      user's records followed by the first `HISTORY_CAP` of this user's. */
  function SaveGeneration(s: Store, g: NewGeneration, freshId: string, now: string): (r: Write<ContentGeneration>)
    ensures r.value.id == freshId && r.value.createdAt == now
    ensures r.value.userId == g.userId && r.value.prompt == g.prompt && r.value.tone == g.tone
    ensures r.value.audience == g.audience && r.value.content == g.content
    ensures r.store.users == s.users
  {
    var rec := Stamp(g, freshId, now);
    var all := [rec] + s.generations;
    Write(rec, s.(generations := Filter(all, NotOwnedBy(g.userId)) + Take(Filter(all, OwnedBy(g.userId)), HISTORY_CAP)))
  }

  /** After a save, the saver's history is the new record followed by their
      previous records, cut to the cap: the newest comes first and the count
      is min(old + 1, 100). */
  lemma SaveGenerationCapsHistory(s: Store, g: NewGeneration, freshId: string, now: string)
    ensures var r := SaveGeneration(s, g, freshId, now);
            && Owned(r.store.generations, g.userId) == Take([r.value] + Owned(s.generations, g.userId), HISTORY_CAP)
            && Owned(r.store.generations, g.userId)[0] == r.value
            && |Owned(r.store.generations, g.userId)|
               == if |Owned(s.generations, g.userId)| < HISTORY_CAP then |Owned(s.generations, g.userId)| + 1 else HISTORY_CAP
  {
    var rec := Stamp(g, freshId, now);
    var all := [rec] + s.generations;
    var u := g.userId;
    var kept := Take(Filter(all, OwnedBy(u)), HISTORY_CAP);
    assert all[1..] == s.generations;
    assert Filter(all, OwnedBy(u)) == [rec] + Owned(s.generations, u);
    FilterConcat(Filter(all, NotOwnedBy(u)), kept, OwnedBy(u));
    FilterNone(Filter(all, NotOwnedBy(u)), OwnedBy(u));
    assert forall x :: x in kept ==> x in Filter(all, OwnedBy(u));
    FilterAll(kept, OwnedBy(u));
  }

  /** A save leaves every other user's records, in their order, and the
      others-only view of the store unchanged. */
  lemma SaveGenerationKeepsOthers(s: Store, g: NewGeneration, freshId: string, now: string, v: string)
    requires v != g.userId
    ensures var r := SaveGeneration(s, g, freshId, now);
            && Owned(r.store.generations, v) == Owned(s.generations, v)
            && Filter(r.store.generations, NotOwnedBy(g.userId)) == Filter(s.generations, NotOwnedBy(g.userId))
  {
    var rec := Stamp(g, freshId, now);
    var all := [rec] + s.generations;
    var u := g.userId;
    var others := Filter(all, NotOwnedBy(u));
    var kept := Take(Filter(all, OwnedBy(u)), HISTORY_CAP);
    assert all[1..] == s.generations;
    assert others == Filter(s.generations, NotOwnedBy(u));
    assert forall x :: x in kept ==> x in Filter(all, OwnedBy(u));
    FilterConcat(others, kept, OwnedBy(v));
    FilterNarrow(s.generations, NotOwnedBy(u), OwnedBy(v));
    FilterNone(kept, OwnedBy(v));
    FilterConcat(others, kept, NotOwnedBy(u));
    FilterAll(others, NotOwnedBy(u));
    FilterNone(kept, NotOwnedBy(u));
  }

  lemma SaveGenerationKeepsAllOthers(s: Store, g: NewGeneration, freshId: string, now: string)
    ensures forall v :: v != g.userId ==>
              Owned(SaveGeneration(s, g, freshId, now).store.generations, v) == Owned(s.generations, v)
  {
    forall v | v != g.userId
      ensures Owned(SaveGeneration(s, g, freshId, now).store.generations, v) == Owned(s.generations, v)
    {
      SaveGenerationKeepsOthers(s, g, freshId, now, v);
    }
  }

  /** Every user holds at most `HISTORY_CAP` records. */
  ghost predicate HistoryCapped(gs: seq<ContentGeneration>)
  {
    forall v :: |Owned(gs, v)| <= HISTORY_CAP
  }

  lemma SaveGenerationPreservesCap(s: Store, g: NewGeneration, freshId: string, now: string)
    requires HistoryCapped(s.generations)
    ensures HistoryCapped(SaveGeneration(s, g, freshId, now).store.generations)
  {
    var r := SaveGeneration(s, g, freshId, now);
    forall v ensures |Owned(r.store.generations, v)| <= HISTORY_CAP {
      if v == g.userId {
        SaveGenerationCapsHistory(s, g, freshId, now);
      } else {
        SaveGenerationKeepsOthers(s, g, freshId, now, v);
      }
    }
  }

  /** Filtering first never makes a later filter's result longer. */
  lemma {:induction false} FilterOfFilterShorter(gs: seq<ContentGeneration>, outer: Sel, inner: Sel)
    ensures |Filter(Filter(gs, outer), inner)| <= |Filter(gs, inner)|
    decreases |gs|
  {
    if |gs| > 0 {
      FilterOfFilterShorter(gs[1..], outer, inner);
    }
  }

  lemma DeletePreservesCap(s: Store, id: string, userId: string)
    requires HistoryCapped(s.generations)
    ensures HistoryCapped(DeleteGeneration(s, id, userId).store.generations)
  {
    var r := DeleteGeneration(s, id, userId);
    forall v ensures |Owned(r.store.generations, v)| <= HISTORY_CAP {
      assert |Owned(s.generations, v)| <= HISTORY_CAP;
      if r.value {
        FilterOfFilterShorter(s.generations, NotKeyed(id, userId), OwnedBy(v));
      }
    }
  }

  /** `count` saves of the same request, each stamped with its own id. */
  function SaveRepeatedly(s: Store, g: NewGeneration, ids: seq<string>, now: string): Store
    decreases |ids|
  {
    if |ids| == 0 then s
    else SaveRepeatedly(SaveGeneration(s, g, ids[0], now).store, g, ids[1..], now)
  }

  /** Repeated saves fill the saver's history up to the cap and no further
      (101 saves from empty leave 100), and never touch another user's. */
  lemma {:induction false} SaveRepeatedlyCount(s: Store, g: NewGeneration, ids: seq<string>, now: string, v: string)
    requires |Owned(s.generations, g.userId)| <= HISTORY_CAP
    ensures var n := |Owned(s.generations, g.userId)| + |ids|;
            |Owned(SaveRepeatedly(s, g, ids, now).generations, g.userId)| == if n < HISTORY_CAP then n else HISTORY_CAP
    ensures v != g.userId ==> Owned(SaveRepeatedly(s, g, ids, now).generations, v) == Owned(s.generations, v)
    decreases |ids|
  {
    if |ids| > 0 {
      var s' := SaveGeneration(s, g, ids[0], now).store;
      SaveGenerationCapsHistory(s, g, ids[0], now);
      if v != g.userId {
        SaveGenerationKeepsOthers(s, g, ids[0], now, v);
      }
      SaveRepeatedlyCount(s', g, ids[1..], now, v);
    }
  }

  /** The history line of one record. */
  function Summarize(g: ContentGeneration): GenerationSummary
  {
    GenerationSummary(g.id, g.prompt, g.tone, g.audience, g.content.blogPost.title, g.createdAt)
  }

  /** `getGenerationsByUserId`: the user's records in stored order, each
      shown with its blog post's title. */
  function GetGenerationsByUserId(s: Store, u: string): (r: seq<GenerationSummary>)
    ensures |r| == |Owned(s.generations, u)|
    ensures forall i :: 0 <= i < |r| ==>
              && r[i].id == Owned(s.generations, u)[i].id
              && r[i].prompt == Owned(s.generations, u)[i].prompt
              && r[i].tone == Owned(s.generations, u)[i].tone
              && r[i].audience == Owned(s.generations, u)[i].audience
              && r[i].blogTitle == Owned(s.generations, u)[i].content.blogPost.title
              && r[i].createdAt == Owned(s.generations, u)[i].createdAt
  {
    var owned := Owned(s.generations, u);
    seq(|owned|, i requires 0 <= i < |owned| => Summarize(owned[i]))
  }

  /** Right after a save, the saver's listing starts with the new record,
      titled by its blog post, and has at most `HISTORY_CAP` lines. */
  lemma HistoryAfterSave(s: Store, g: NewGeneration, freshId: string, now: string)
    ensures var h := GetGenerationsByUserId(SaveGeneration(s, g, freshId, now).store, g.userId);
            && 0 < |h| <= HISTORY_CAP
            && h[0] == GenerationSummary(freshId, g.prompt, g.tone, g.audience, g.content.blogPost.title, now)
  {
    SaveGenerationCapsHistory(s, g, freshId, now);
  }

  function FindGeneration(gs: seq<ContentGeneration>, id: string): (r: Option<nat>)
    ensures r.Some? ==> r.value < |gs| && gs[r.value].id == id
    ensures r.Some? ==> forall j :: 0 <= j < r.value ==> gs[j].id != id
    ensures r.None? <==> forall j :: 0 <= j < |gs| ==> gs[j].id != id
    decreases |gs|
  {
    if |gs| == 0 then None
    else if gs[0].id == id then Some(0)
    else
      match FindGeneration(gs[1..], id)
      case None => None
      case Some(i) => Some(i + 1)
  }

  /** `getGenerationById`: the first record carrying `id`, whoever owns it. */
  function GetGenerationById(s: Store, id: string): (r: Option<ContentGeneration>)
    ensures r.None? <==> forall j :: 0 <= j < |s.generations| ==> s.generations[j].id != id
    ensures r.Some? ==> r.value in s.generations && r.value.id == id
    ensures r.Some? ==> exists i :: 0 <= i < |s.generations| && s.generations[i] == r.value
                                    && forall j :: 0 <= j < i ==> s.generations[j].id != id
  {
    match FindGeneration(s.generations, id)
    case None => None
    case Some(i) => Some(s.generations[i])
  }

  /** A record saved under an id no stored record carries is what looking
      that id up returns afterwards. */
  lemma SaveThenGetById(s: Store, g: NewGeneration, freshId: string, now: string)
    requires forall j :: 0 <= j < |s.generations| ==> s.generations[j].id != freshId
    ensures GetGenerationById(SaveGeneration(s, g, freshId, now).store, freshId)
            == Some(SaveGeneration(s, g, freshId, now).value)
  {
    var r := SaveGeneration(s, g, freshId, now);
    var all := [r.value] + s.generations;
    var others := Filter(all, NotOwnedBy(g.userId));
    var mine := Filter(all, OwnedBy(g.userId));
    var kept := Take(mine, HISTORY_CAP);
    assert r.store.generations == others + kept;
    SaveGenerationCapsHistory(s, g, freshId, now);
    assert r.value in kept;
    assert forall x :: x in kept ==> x in mine by {
      forall x | x in kept ensures x in mine {
        var k :| 0 <= k < |kept| && kept[k] == x;
        assert mine[k] == x;
      }
    }
    var found := GetGenerationById(r.store, freshId);
    assert found.value in all;
  }

  /** `deleteGeneration`: removes the records carrying both `id` and `userId`;
      reports false and writes nothing when there are none. */
  function DeleteGeneration(s: Store, id: string, userId: string): (r: Write<bool>)
    ensures r.value <==> exists g :: g in s.generations && g.id == id && g.userId == userId
    ensures !r.value ==> r.store == s
    ensures r.value ==> r.store == s.(generations := Filter(s.generations, NotKeyed(id, userId)))
  {
    var filtered := Filter(s.generations, NotKeyed(id, userId));
    FilterKeepsAllIff(s.generations, NotKeyed(id, userId));
    if |filtered| == |s.generations| then Write(false, s)
    else Write(true, s.(generations := filtered))
  }

  /** After a delete, no record with that id and owner is left, and every
      other record is still there. */
  lemma DeleteRemovesExactly(s: Store, id: string, userId: string)
    ensures var r := DeleteGeneration(s, id, userId);
            && (forall g :: g in r.store.generations ==> !(g.id == id && g.userId == userId))
            && (forall g :: g in s.generations && !(g.id == id && g.userId == userId) ==> g in r.store.generations)
            && r.store.users == s.users
  {
  }

}

=== FILE: generate_route.dfy ===
/** POST /api/generate (app/api/generate/route.ts): an ordered chain of
    checks, then one call to the language model, one save and one counter
    update. */
module GenerateRoute {
  import opened Base
  import opened Types
  import opened Db
  import opened Validations
  import opened Http

  const FREE_TIER_LIMIT: nat := 10

  /** The placeholder key, treated as no key at all. */
  const GROQ_PLACEHOLDER := "your_groq_api_key_here"

  const LIMIT_MESSAGE := "You've reached the free plan limit of 10 generations. Upgrade to Pro for unlimited access."
  const KEY_MISSING := "API key not configured. Please add your GROQ_API_KEY to .env.local."

  predicate OverQuota(u: User)
  {
    u.plan == Free && u.generationsCount >= FREE_TIER_LIMIT
  }

  /** `process.env.GROQ_API_KEY` is set, non-empty and not the placeholder. */
  predicate GroqConfigured(key: Option<string>)
  {
    key.Some? && key.value != "" && key.value != GROQ_PLACEHOLDER
  }

  /** The request got past authentication, the account lookup and the quota. */
  predicate Admitted(session: Option<string>, s: Store)
  {
    SignedIn(session) && GetUserById(s, session.value).Some? && !OverQuota(GetUserById(s, session.value).value)
  }

  /** Everything before the model call passed: admitted, key configured,
      body parsed and valid. */
  predicate ReadyToSynthesize(session: Option<string>, body: Result<GenerateBody>, s: Store, e: Env)
  {
    Admitted(session, s) && GroqConfigured(e.groqApiKey) && body.Ok? && ValidateGenerate(body.value).Ok?
  }

  /** The model's answer for a request that is ready to synthesize. */
  function Synthesized(body: Result<GenerateBody>, e: Env): Result<GeneratedContent>
    requires body.Ok? && ValidateGenerate(body.value).Ok?
  {
    var input := ValidateGenerate(body.value).value;
    e.synthesize(input.prompt, input.tone, input.audience)
  }

  /** Lines 52-56 of the route: save the record, then set the counter to the
      loaded count plus one, then answer 201 with the record. */
  function Commit(s: Store, user: User, g: NewGeneration, e: Env): (r: Exchange)
    requires GetUserById(s, g.userId) == Some(user)
    ensures r.response == Response(201, GenerationBody(Stamp(g, e.freshId, e.now)), None)
    ensures var i := FindUser(s.users, ById(g.userId)).value;
            s.users[i] == user && r.store.users == s.users[i := user.(generationsCount := user.generationsCount + 1)]
    ensures Owned(r.store.generations, g.userId) == Take([Stamp(g, e.freshId, e.now)] + Owned(s.generations, g.userId), HISTORY_CAP)
    ensures forall v :: v != g.userId ==> Owned(r.store.generations, v) == Owned(s.generations, v)
    ensures GetUserById(r.store, g.userId) == Some(user.(generationsCount := user.generationsCount + 1))
  {
    var saved := SaveGeneration(s, g, e.freshId, e.now);
    UpdateThenGet(saved.store, g.userId, CountPatch(user.generationsCount + 1));
    SaveGenerationCapsHistory(s, g, e.freshId, e.now);
    SaveGenerationKeepsAllOthers(s, g, e.freshId, e.now);
    var updated := UpdateUser(saved.store, g.userId, CountPatch(user.generationsCount + 1));
    Exchange(Response(201, GenerationBody(saved.value), None), updated.store)
  }

  function Generate(session: Option<string>, body: Result<GenerateBody>, s: Store, e: Env): (r: Exchange)
    ensures !SignedIn(session) ==> r == Exchange(Error(401, UNAUTHORIZED), s)
    ensures r.response.status != 201 ==> r.store == s
    ensures r.response.status == 404 <==> SignedIn(session) && GetUserById(s, session.value).None?
    ensures r.response.status == 429 <==>
              SignedIn(session) && GetUserById(s, session.value).Some? && OverQuota(GetUserById(s, session.value).value)
    ensures r.response.status == 429 ==> r.response.payload == LimitBody(LIMIT_MESSAGE, true)
    ensures r.response.status == 503 <==> Admitted(session, s) && !GroqConfigured(e.groqApiKey)
    ensures r.response.status == 400 <==>
              Admitted(session, s) && GroqConfigured(e.groqApiKey) && body.Ok? && ValidateGenerate(body.value).Err?
    ensures r.response.status == 400 ==> r.response.payload == ErrorBody(ValidateGenerate(body.value).error)
    ensures r.response.status == 500 <==>
              Admitted(session, s) && GroqConfigured(e.groqApiKey)
              && (body.Err? || (ValidateGenerate(body.value).Ok? && Synthesized(body, e).Err?))
    ensures r.response.status == 201 <==> ReadyToSynthesize(session, body, s, e) && Synthesized(body, e).Ok?
    ensures r.response.status in {201, 400, 401, 404, 429, 500, 503}
    ensures r.response.cookie.None?
    // each error carries its message; a failed parse or model call reports its own
    ensures r.response.status == 404 ==> r.response == Error(404, USER_NOT_FOUND)
    ensures r.response.status == 503 ==> r.response == Error(503, KEY_MISSING)
    ensures r.response.status == 500 && body.Err? ==> r.response == Error(500, body.error)
    ensures r.response.status == 500 && body.Ok? && ValidateGenerate(body.value).Ok? ==>
              r.response == Error(500, Synthesized(body, e).error)
  {
    if !SignedIn(session) then Exchange(Error(401, UNAUTHORIZED), s)
    else
      var uid := session.value;
      match GetUserById(s, uid)
      case None => Exchange(Error(404, USER_NOT_FOUND), s)
      case Some(user) =>
        if OverQuota(user) then Exchange(Response(429, LimitBody(LIMIT_MESSAGE, true), None), s)
        else if !GroqConfigured(e.groqApiKey) then Exchange(Error(503, KEY_MISSING), s)
        else
          match body
          case Err(parseError) => Exchange(Error(500, parseError), s)
          case Ok(b) =>
            match ValidateGenerate(b)
            case Err(issue) => Exchange(Error(400, issue), s)
            case Ok(input) =>
              match e.synthesize(input.prompt, input.tone, input.audience)
              case Err(failure) => Exchange(Error(500, failure), s)
              case Ok(content) =>
                Commit(s, user, NewGeneration(uid, input.prompt, input.tone, input.audience, content), e)
  }

  /** What a request that got an answer from the model asks to save. */
  function Pending(session: Option<string>, body: Result<GenerateBody>, e: Env): NewGeneration
    requires session.Some? && body.Ok? && ValidateGenerate(body.value).Ok? && Synthesized(body, e).Ok?
  {
    var input := ValidateGenerate(body.value).value;
    NewGeneration(session.value, input.prompt, input.tone, input.audience, Synthesized(body, e).value)
  }

  /** A free account at the limit is refused before anything else happens:
      the answer depends neither on the body nor on any oracle, so the model
      is not consulted, and nothing is written. */
  lemma QuotaCheckedFirst(session: Option<string>, body1: Result<GenerateBody>, body2: Result<GenerateBody>,
                          s: Store, e1: Env, e2: Env)
    requires SignedIn(session) && GetUserById(s, session.value).Some?
    requires OverQuota(GetUserById(s, session.value).value)
    ensures Generate(session, body1, s, e1) == Generate(session, body2, s, e2)
    ensures Generate(session, body1, s, e1) == Exchange(Response(429, LimitBody(LIMIT_MESSAGE, true), None), s)
  {
  }

  /** An invalid body is answered without the model: replacing the model
      changes nothing, and nothing is written. */
  lemma ValidationBeforeSynthesis(session: Option<string>, b: GenerateBody, s: Store, e: Env,
                                  other: (string, Tone, string) -> Result<GeneratedContent>)
    requires ValidateGenerate(b).Err?
    ensures Generate(session, Ok(b), s, e) == Generate(session, Ok(b), s, e.(synthesize := other))
    ensures Generate(session, Ok(b), s, e).store == s
  {
  }

  /** When every check passes and the model answers, the request's effect is
      exactly `Commit` of the validated input and the model's content for the
      loaded account (and by `Generate`'s contract these are the only 201s). */
  lemma GenerateSuccess(session: Option<string>, body: Result<GenerateBody>, s: Store, e: Env)
    requires ReadyToSynthesize(session, body, s, e) && Synthesized(body, e).Ok?
    ensures Generate(session, body, s, e).response.status == 201
    ensures Generate(session, body, s, e) == Commit(s, GetUserById(s, session.value).value, Pending(session, body, e), e)
  {
  }

  /** Every free account is within the limit. */
  ghost predicate QuotaRespected(users: seq<User>)
  {
    forall i :: 0 <= i < |users| ==> users[i].plan == Free ==> users[i].generationsCount <= FREE_TIER_LIMIT
  }

  lemma CommitEvolves(s: Store, user: User, g: NewGeneration, e: Env)
    requires GetUserById(s, g.userId) == Some(user)
    ensures Evolves(s.users, Commit(s, user, g, e).store.users)
    ensures QuotaRespected(s.users) && !OverQuota(user) ==> QuotaRespected(Commit(s, user, g, e).store.users)
  {
  }

  /** Generation keeps accounts evolving forward, and, one request at a time,
      never takes a free account past the limit. */
  lemma GenerateEvolves(session: Option<string>, body: Result<GenerateBody>, s: Store, e: Env)
    ensures Evolves(s.users, Generate(session, body, s, e).store.users)
    ensures QuotaRespected(s.users) ==> QuotaRespected(Generate(session, body, s, e).store.users)
  {
    if Generate(session, body, s, e).response.status == 201 {
      GenerateSuccess(session, body, s, e);
      CommitEvolves(s, GetUserById(s, session.value).value, Pending(session, body, e), e);
    }
  }

  /** Requests handled one after the other: a free account at 9 that is
      granted one generation is refused the next one. */
  lemma NextRequestAfterLastFreeGenerationIsRefused(
    session: Option<string>, body1: Result<GenerateBody>, body2: Result<GenerateBody>, s: Store, e1: Env, e2: Env)
    requires SignedIn(session) && GetUserById(s, session.value).Some?
    requires GetUserById(s, session.value).value.plan == Free
    requires GetUserById(s, session.value).value.generationsCount == FREE_TIER_LIMIT - 1
    requires GroqConfigured(e1.groqApiKey) && body1.Ok? && ValidateGenerate(body1.value).Ok?
    requires Synthesized(body1, e1).Ok?
    ensures Generate(session, body1, s, e1).response.status == 201
    ensures Generate(session, body2, Generate(session, body1, s, e1).store, e2).response.status == 429
  {
    GenerateSuccess(session, body1, s, e1);
  }

}

=== FILE: history_routes.dfy ===
/** The history endpoints: GET /api/history (app/api/history/route.ts) and
    GET and DELETE /api/history/[id] (app/api/history/[id]/route.ts). A
    record is only ever shown to or deleted by its owner, and a foreign
    record looks exactly like a missing one. */
module HistoryRoutes {
  import opened Base
  import opened Types
  import opened Db
  import opened Http

  const NOT_FOUND := "Not found."

  function ListHistory(session: Option<string>, s: Store): (r: Exchange)
    ensures r.store == s
    ensures !SignedIn(session) ==> r.response == Error(401, UNAUTHORIZED)
    ensures SignedIn(session) ==> r.response.status == 200 && r.response.payload.HistoryBody?
    ensures SignedIn(session) ==> |r.response.payload.generations| == |Owned(s.generations, session.value)|
    ensures SignedIn(session) ==> r.response.payload == HistoryBody(GetGenerationsByUserId(s, session.value))
    ensures r.response.cookie.None?
    ensures SignedIn(session) ==>
              forall k :: 0 <= k < |r.response.payload.generations| ==>
                r.response.payload.generations[k].id == Owned(s.generations, session.value)[k].id
  {
    if !SignedIn(session) then Exchange(Error(401, UNAUTHORIZED), s)
    else Exchange(Response(200, HistoryBody(GetGenerationsByUserId(s, session.value)), None), s)
  }

  function GetHistoryItem(session: Option<string>, id: string, s: Store): (r: Exchange)
    ensures r.store == s
    ensures !SignedIn(session) ==> r.response == Error(401, UNAUTHORIZED)
    ensures r.response.status == 200 ==>
              && SignedIn(session)
              && r.response.payload.GenerationBody?
              && r.response.payload.generation in s.generations
              && r.response.payload.generation.id == id
              && r.response.payload.generation.userId == session.value
    ensures r.response.status == 404 <==>
              SignedIn(session) && (GetGenerationById(s, id).None? || GetGenerationById(s, id).value.userId != session.value)
    ensures r.response.status == 404 ==> r.response == Error(404, NOT_FOUND)
    // the owner of the record the lookup finds is shown that record
    ensures SignedIn(session) && GetGenerationById(s, id).Some? && GetGenerationById(s, id).value.userId == session.value ==>
              r.response == Response(200, GenerationBody(GetGenerationById(s, id).value), None)
  {
    if !SignedIn(session) then Exchange(Error(401, UNAUTHORIZED), s)
    else
      match GetGenerationById(s, id)
      case None => Exchange(Error(404, NOT_FOUND), s)
      case Some(g) =>
        if g.userId != session.value then Exchange(Error(404, NOT_FOUND), s)
        else Exchange(Response(200, GenerationBody(g), None), s)
  }

  function DeleteHistoryItem(session: Option<string>, id: string, s: Store): (r: Exchange)
    ensures !SignedIn(session) ==> r == Exchange(Error(401, UNAUTHORIZED), s)
    ensures r.response.status == 200 <==>
              SignedIn(session) && exists g :: g in s.generations && g.id == id && g.userId == session.value
    ensures r.response.status == 200 ==> r.response == Response(200, SuccessBody, None)
    ensures r.response.status == 200 ==>
              && (forall g :: g in r.store.generations ==> !(g.id == id && g.userId == session.value))
              && (forall g :: g in s.generations && !(g.id == id && g.userId == session.value) ==> g in r.store.generations)
              && r.store.users == s.users
    ensures r.response.status == 200 ==> r.store == DeleteGeneration(s, id, session.value).store
    ensures r.response.status != 200 ==> r.store == s
    ensures SignedIn(session) && r.response.status != 200 ==> r.response == Error(404, NOT_FOUND)
  {
    if !SignedIn(session) then Exchange(Error(401, UNAUTHORIZED), s)
    else
      var deleted := DeleteGeneration(s, id, session.value);
      if !deleted.value then Exchange(Error(404, NOT_FOUND), s)
      else Exchange(Response(200, SuccessBody, None), deleted.store)
  }

  /** A record deleted by someone other than its owner stays, and the answer
      is the same 404 a missing id gets. */
  lemma ForeignDeleteIsNotFound(session: Option<string>, id: string, s: Store, g: ContentGeneration)
    requires SignedIn(session) && g in s.generations && g.id == id && g.userId != session.value
    requires forall h :: h in s.generations && h.id == id ==> h.userId != session.value
    ensures DeleteHistoryItem(session, id, s) == Exchange(Error(404, NOT_FOUND), s)
    ensures g in DeleteHistoryItem(session, id, s).store.generations
  {
  }

}

=== FILE: http.dfy ===
/** What the route handlers share: the outside world as parameters, and the
    JSON responses they send. */
module Http {
  import opened Base
  import opened Types
  import opened Db

  /** The outside world of one request. Each field stands for a call the
      handlers make and the model does not interpret. */
  datatype Env = Env(
    isEmail: string -> bool,                    // zod's email syntax check
    hashPassword: string -> string,             // bcrypt.hash(password, 12)
    verifyPassword: (string, string) -> bool,   // bcrypt.compare(password, hash)
    createToken: string -> string,              // signed session token for a user id
    hmacSha256: (string, string) -> string,     // hex HMAC-SHA256 of a message under a key
    razorpaySecret: Option<string>,             // RAZORPAY_KEY_SECRET, if set
    groqApiKey: Option<string>,                 // GROQ_API_KEY, if set
    synthesize: (string, Tone, string) -> Result<GeneratedContent>,  // the language-model call
    freshId: string,                            // crypto.randomUUID()
    now: string)                                // new Date().toISOString()

  /** A user as the register and login responses show it. */
  datatype AccountView = AccountView(
    id: string,
    email: string,
    name: string,
    plan: Plan,
    generationsCount: nat)

  datatype Payload =
    | ErrorBody(message: string)                        // { error }
    | LimitBody(message: string, limitReached: bool)    // { error, limitReached }
    | GenerationBody(generation: ContentGeneration)     // { generation }
    | AccountBody(user: AccountView)                    // { user } without createdAt
    | ProfileBody(profile: PublicUser)                  // { user } with createdAt
    | HistoryBody(generations: seq<GenerationSummary>)  // { generations }
    | SuccessBody                                       // { success: true }

  /** A response: status, JSON body, and the session cookie it sets, if any. */
  datatype Response = Response(status: nat, payload: Payload, cookie: Option<string>)

  /** A handled request: the response and the store it leaves. */
  datatype Exchange = Exchange(response: Response, store: Store)

  /** `getCurrentUserId()` followed by `if (!userId)`: an empty id counts as
      no session. */
  predicate SignedIn(session: Option<string>)
  {
    session.Some? && session.value != ""
  }

  function Error(status: nat, message: string): Response
  {
    Response(status, ErrorBody(message), None)
  }

  function View(u: User): AccountView
  {
    AccountView(u.id, u.email, u.name, u.plan, u.generationsCount)
  }

  function Profile(u: User): PublicUser
  {
    PublicUser(u.id, u.email, u.name, u.plan, u.generationsCount, u.createdAt)
  }

  const INTERNAL_ERROR := "Internal server error."
  const UNAUTHORIZED := "Unauthorized."
  const USER_NOT_FOUND := "User not found."

}

=== FILE: login_route.dfy ===
/** POST /api/auth/login (app/api/auth/login/route.ts). */
module LoginRoute {
  import opened Base
  import opened Types
  import opened Db
  import opened Validations
  import opened Http

  const BAD_CREDENTIALS := "Invalid email or password."

  /** The body validated and the email found an account whose hash accepts
      the password. */
  predicate Authenticates(b: LoginBody, s: Store, e: Env)
  {
    GetUserByEmail(s, b.email).Some? && e.verifyPassword(b.password, GetUserByEmail(s, b.email).value.passwordHash)
  }

  function Login(body: Result<LoginBody>, s: Store, e: Env): (r: Exchange)
    ensures r.store == s
    ensures body.Err? ==> r.response == Error(500, INTERNAL_ERROR)
    ensures r.response.status == 400 <==> body.Ok? && ValidateLogin(body.value, e.isEmail).Err?
    ensures r.response.status == 400 ==> r.response.payload == ErrorBody(ValidateLogin(body.value, e.isEmail).error)
    // an unknown email and a wrong password get the very same answer
    ensures r.response.status == 401 <==>
              body.Ok? && ValidateLogin(body.value, e.isEmail).Ok? && !Authenticates(body.value, s, e)
    ensures r.response.status == 401 ==> r.response == Error(401, BAD_CREDENTIALS)
    ensures r.response.status == 200 <==>
              body.Ok? && ValidateLogin(body.value, e.isEmail).Ok? && Authenticates(body.value, s, e)
    ensures r.response.status == 200 ==>
              var u := GetUserByEmail(s, body.value.email).value;
              && r.response.cookie == Some(e.createToken(u.id))
              && r.response.payload == AccountBody(AccountView(u.id, u.email, u.name, u.plan, u.generationsCount))
    ensures r.response.status in {200, 400, 401, 500}
    // only a successful sign-in sets the session cookie
    ensures r.response.status != 200 ==> r.response.cookie.None?
  {
    match body
    case Err(_) => Exchange(Error(500, INTERNAL_ERROR), s)
    case Ok(raw) =>
      match ValidateLogin(raw, e.isEmail)
      case Err(issue) => Exchange(Error(400, issue), s)
      case Ok(b) =>
        match GetUserByEmail(s, b.email)
        case None => Exchange(Error(401, BAD_CREDENTIALS), s)
        case Some(user) =>
          if !e.verifyPassword(b.password, user.passwordHash) then Exchange(Error(401, BAD_CREDENTIALS), s)
          else
            var token := e.createToken(user.id);
            Exchange(Response(200, AccountBody(View(user)), Some(token)), s)
  }

  /** An unknown email and a wrong password cannot be told apart from the
      response. */
  lemma LoginFailuresIndistinguishable(b1: LoginBody, s1: Store, e1: Env, b2: LoginBody, s2: Store, e2: Env)
    requires ValidateLogin(b1, e1.isEmail).Ok? && GetUserByEmail(s1, b1.email).None?
    requires ValidateLogin(b2, e2.isEmail).Ok? && GetUserByEmail(s2, b2.email).Some?
    requires !e2.verifyPassword(b2.password, GetUserByEmail(s2, b2.email).value.passwordHash)
    ensures Login(Ok(b1), s1, e1).response == Login(Ok(b2), s2, e2).response
  {
  }

}

=== FILE: me_route.dfy ===
/** GET /api/auth/me (app/api/auth/me/route.ts). */
module MeRoute {
  import opened Base
  import opened Types
  import opened Db
  import opened Http

  /** The signed-in account without its password hash. */
  function Me(session: Option<string>, s: Store): (r: Exchange)
    ensures r.store == s
    ensures !SignedIn(session) ==> r.response == Error(401, UNAUTHORIZED)
    ensures SignedIn(session) && GetUserById(s, session.value).None? ==> r.response == Error(404, USER_NOT_FOUND)
    ensures r.response.status == 200 <==> SignedIn(session) && GetUserById(s, session.value).Some?
    ensures r.response.status == 200 ==>
              var u := GetUserById(s, session.value).value;
              && r.response.cookie.None?
              && r.response.payload == ProfileBody(PublicUser(u.id, u.email, u.name, u.plan, u.generationsCount, u.createdAt))
  {
    if !SignedIn(session) then Exchange(Error(401, UNAUTHORIZED), s)
    else
      match GetUserById(s, session.value)
      case None => Exchange(Error(404, USER_NOT_FOUND), s)
      case Some(user) => Exchange(Response(200, ProfileBody(Profile(user)), None), s)
  }

}

=== FILE: payment_route.dfy ===
/** POST /api/payment/verify (app/api/payment/verify/route.ts): checks the
    gateway's signature and moves the account to the pro plan. */
module PaymentRoute {
  import opened Base
  import opened Types
  import opened Db
  import opened Http

  /** This route's 401 message has no full stop, unlike `Http.UNAUTHORIZED`. */
  const PAYMENT_UNAUTHORIZED := "Unauthorized"
  const MISSING_DETAILS := "Missing payment details"
  const BAD_SIGNATURE := "Invalid payment signature"
  const VERIFY_FAILED := "Payment verification failed"

  /** The three fields the client posts; `None` when a field is absent. */
  datatype PaymentBody = PaymentBody(orderId: Option<string>, paymentId: Option<string>, signature: Option<string>)

  /** A field passes `!field` only when it is present and non-empty. */
  predicate Present(f: Option<string>)
  {
    f.Some? && f.value != ""
  }

  predicate Complete(b: PaymentBody)
  {
    Present(b.orderId) && Present(b.paymentId) && Present(b.signature)
  }

  /** The string the gateway signs: `${order_id}|${payment_id}`. */
  function SignedMessage(orderId: string, paymentId: string): string
  {
    orderId + "|" + paymentId
  }

  /** The posted signature equals the HMAC of the order and payment ids under
      the configured secret. */
  predicate Genuine(b: PaymentBody, e: Env)
    requires Complete(b)
  {
    e.razorpaySecret.Some?
    && e.hmacSha256(e.razorpaySecret.value, SignedMessage(b.orderId.value, b.paymentId.value)) == b.signature.value
  }

  function VerifyPayment(session: Option<string>, body: Result<PaymentBody>, s: Store, e: Env): (r: Exchange)
    ensures !SignedIn(session) ==> r == Exchange(Error(401, PAYMENT_UNAUTHORIZED), s)
    ensures SignedIn(session) && body.Err? ==> r == Exchange(Error(500, VERIFY_FAILED), s)
    ensures SignedIn(session) && body.Ok? && !Complete(body.value) ==> r == Exchange(Error(400, MISSING_DETAILS), s)
    ensures SignedIn(session) && body.Ok? && Complete(body.value) && e.razorpaySecret.None? ==>
              r == Exchange(Error(500, VERIFY_FAILED), s)
    ensures SignedIn(session) && body.Ok? && Complete(body.value) && e.razorpaySecret.Some? && !Genuine(body.value, e) ==>
              r == Exchange(Error(400, BAD_SIGNATURE), s)
    ensures r.response.status == 200 <==> SignedIn(session) && body.Ok? && Complete(body.value) && Genuine(body.value, e)
    ensures r.response.status == 200 ==> r.response == Response(200, SuccessBody, None)
    ensures r.response.status != 200 ==> r.store == s
    // the only write ever made sets one account's plan to pro
    ensures r.store.generations == s.generations && |r.store.users| == |s.users|
    ensures forall i :: 0 <= i < |s.users| ==> r.store.users[i] == s.users[i] || r.store.users[i] == s.users[i].(plan := Pro)
    // after a success the signed-in account, if it exists, is pro; a missing account means no write
    ensures r.response.status == 200 && GetUserById(s, session.value).Some? ==>
              GetUserById(r.store, session.value) == Some(GetUserById(s, session.value).value.(plan := Pro))
    ensures r.response.status == 200 && GetUserById(s, session.value).None? ==> r.store == s
    // an account that is already pro is left as it is; a free one is the only account written
    ensures r.response.status == 200 && GetUserById(s, session.value).Some? && GetUserById(s, session.value).value.plan == Pro ==>
              r.store == s
    ensures r.response.status == 200 && GetUserById(s, session.value).Some? && GetUserById(s, session.value).value.plan == Free ==>
              var i := FindUser(s.users, ById(session.value)).value;
              r.store == s.(users := s.users[i := s.users[i].(plan := Pro)])
  {
    if !SignedIn(session) then Exchange(Error(401, PAYMENT_UNAUTHORIZED), s)
    else
      match body
      case Err(_) => Exchange(Error(500, VERIFY_FAILED), s)
      case Ok(b) =>
        if !Complete(b) then Exchange(Error(400, MISSING_DETAILS), s)
        else if e.razorpaySecret.None? then Exchange(Error(500, VERIFY_FAILED), s)
        else if !Genuine(b, e) then Exchange(Error(400, BAD_SIGNATURE), s)
        else
          var uid := session.value;
          var user := GetUserById(s, uid);
          if user.Some? && user.value.plan == Pro then Exchange(Response(200, SuccessBody, None), s)
          else
            UpdateThenGet(s, uid, PlanPatch(Pro));
            PatchesTouchOneField(0, Pro);
            Exchange(Response(200, SuccessBody, None), UpdateUser(s, uid, PlanPatch(Pro)).store)
  }

  /** Verifying the same payment again changes nothing more: the second call
      answers the same and writes nothing. */
  lemma VerifyPaymentIdempotent(session: Option<string>, body: Result<PaymentBody>, s: Store, e: Env)
    ensures var first := VerifyPayment(session, body, s, e);
            VerifyPayment(session, body, first.store, e) == first
  {
  }

}

=== FILE: proxy.dfy ===
/** The request guard of proxy.ts: a pure decision over the path and the
    session cookie. Token verification is the uninterpreted `verify`. */
module Proxy {
  import opened Base

  const PROTECTED_ROUTES: seq<string> := ["/dashboard", "/history"]
  const AUTH_ROUTES: seq<string> := ["/login", "/register"]

  datatype Decision =
    | RedirectToLogin(from: string)   // /login?from=<path>
    | RedirectToDashboard
    | PassThrough

  predicate StartsWith(s: string, prefix: string)
  {
    |prefix| <= |s| && s[..|prefix|] == prefix
  }

  /** `routes.some((route) => pathname.startsWith(route))`. */
  function SomePrefix(routes: seq<string>, pathname: string): (r: bool)
    ensures r <==> exists i :: 0 <= i < |routes| && StartsWith(pathname, routes[i])
    decreases |routes|
  {
    if |routes| == 0 then false
    else StartsWith(pathname, routes[0]) || SomePrefix(routes[1..], pathname)
  }

  /** `routes.some((route) => pathname === route)`. */
  function SomeEqual(routes: seq<string>, pathname: string): (r: bool)
    ensures r <==> pathname in routes
    decreases |routes|
  {
    if |routes| == 0 then false
    else pathname == routes[0] || SomeEqual(routes[1..], pathname)
  }

  /** An auth cookie counts only when it is non-empty and verifies. */
  function IsAuthenticated(cookie: Option<string>, verify: string -> bool): (r: bool)
    ensures cookie.None? ==> !r
    ensures r ==> cookie.value != "" && verify(cookie.value)
    ensures cookie.Some? && cookie.value != "" && verify(cookie.value) ==> r
  {
    match cookie
    case None => false
    case Some(token) => if token != "" then verify(token) else false
  }

  /** The guard's decision: protected paths are matched by prefix, auth
      pages by exact equality. */
  function Decide(pathname: string, authenticated: bool): (d: Decision)
    ensures d.RedirectToLogin? <==>
              !authenticated && (StartsWith(pathname, "/dashboard") || StartsWith(pathname, "/history"))
    ensures d.RedirectToLogin? ==> d.from == pathname
    ensures d.RedirectToDashboard? <==> authenticated && (pathname == "/login" || pathname == "/register")
  {
    if SomePrefix(PROTECTED_ROUTES, pathname) && !authenticated then RedirectToLogin(pathname)
    else if SomeEqual(AUTH_ROUTES, pathname) && authenticated then RedirectToDashboard
    else PassThrough
  }

  function Guard(pathname: string, cookie: Option<string>, verify: string -> bool): (d: Decision)
    ensures cookie.None? ==> d == Decide(pathname, false)
    ensures d == Decide(pathname, cookie.Some? && cookie.value != "" && verify(cookie.value))
  {
    Decide(pathname, IsAuthenticated(cookie, verify))
  }

  /** No path is both protected and an auth page, so the redirect branches
      never compete. */
  lemma RouteListsDisjoint(pathname: string)
    ensures !(SomePrefix(PROTECTED_ROUTES, pathname) && SomeEqual(AUTH_ROUTES, pathname))
  {
    if pathname == "/register" {
      assert pathname[..8][1] == 'r';
      assert !StartsWith(pathname, "/history");
    }
  }

  /** Auth pages are matched exactly: a sub-path of /login is not sent to the
      dashboard, while any path under /dashboard needs a session. */
  lemma ExactVersusPrefix()
    ensures Decide("/login/x", true) == PassThrough
    ensures Decide("/dashboard/settings", false) == RedirectToLogin("/dashboard/settings")
    ensures Decide("/", false) == PassThrough
  {
    assert !StartsWith("/login/x", "/dashboard");
    assert "/login/x"[..8][1] == 'l';
    assert StartsWith("/dashboard/settings", "/dashboard");
  }

}

=== FILE: register_route.dfy ===
/** POST /api/auth/register (app/api/auth/register/route.ts). */
module RegisterRoute {
  import opened Base
  import opened Types
  import opened Db
  import opened Validations
  import opened Http

  const EMAIL_TAKEN := "An account with this email already exists."

  /** Some stored account already uses this email, ignoring case. */
  predicate EmailTaken(s: Store, email: string)
  {
    exists j :: 0 <= j < |s.users| && SameEmail(s.users[j].email, email)
  }

  /** The account a successful registration stores. */
  function NewAccount(b: RegisterBody, e: Env): User
  {
    User(e.freshId, b.email, b.name, e.hashPassword(b.password), e.now, Free, 0)
  }

  function Register(body: Result<RegisterBody>, s: Store, e: Env): (r: Exchange)
    ensures body.Err? ==> r == Exchange(Error(500, INTERNAL_ERROR), s)
    ensures r.response.status != 201 ==> r.store == s && r.response.cookie.None?
    ensures r.response.status == 400 <==> body.Ok? && ValidateRegister(body.value, e.isEmail).Err?
    ensures r.response.status == 400 ==> r.response.payload == ErrorBody(ValidateRegister(body.value, e.isEmail).error)
    ensures r.response.status == 409 <==>
              body.Ok? && ValidateRegister(body.value, e.isEmail).Ok? && EmailTaken(s, body.value.email)
    ensures r.response.status == 409 ==> r.response.payload == ErrorBody(EMAIL_TAKEN)
    ensures r.response.status == 201 <==>
              body.Ok? && ValidateRegister(body.value, e.isEmail).Ok? && !EmailTaken(s, body.value.email)
    // exactly one account is appended: free, no generations, the password's hash
    // and never the password; the session cookie carries a token for its id
    ensures r.response.status == 201 ==>
              && r.store.users == s.users + [NewAccount(body.value, e)]
              && r.store.generations == s.generations
              && r.response.cookie == Some(e.createToken(e.freshId))
              && r.response.payload == AccountBody(AccountView(e.freshId, body.value.email, body.value.name, Free, 0))
    ensures r.response.status in {201, 400, 409, 500}
  {
    match body
    case Err(_) => Exchange(Error(500, INTERNAL_ERROR), s)
    case Ok(raw) =>
      match ValidateRegister(raw, e.isEmail)
      case Err(issue) => Exchange(Error(400, issue), s)
      case Ok(b) =>
        if GetUserByEmail(s, b.email).Some? then Exchange(Error(409, EMAIL_TAKEN), s)
        else
          var created := CreateUser(s, b.email, b.name, e.hashPassword(b.password), e.freshId, e.now);
          var token := e.createToken(created.value.id);
          Exchange(Response(201, AccountBody(View(created.value)), Some(token)), created.store)
  }

  /** Two registrations with the same email, one after the other: the second
      is refused with 409 whatever the letter case, and adds nothing. */
  lemma SecondRegistrationRefused(b1: RegisterBody, b2: RegisterBody, s: Store, e1: Env, e2: Env)
    requires Register(Ok(b1), s, e1).response.status == 201
    requires ValidateRegister(b2, e2.isEmail).Ok? && SameEmail(b1.email, b2.email)
    ensures Register(Ok(b2), Register(Ok(b1), s, e1).store, e2).response.status == 409
    ensures Register(Ok(b2), Register(Ok(b1), s, e1).store, e2).store == Register(Ok(b1), s, e1).store
  {
    var s' := Register(Ok(b1), s, e1).store;
    assert SameEmail(s'.users[|s.users|].email, b2.email);
  }

}

=== FILE: server.dfy ===
/** All route handlers behind one dispatch, and what holds of every store
    reachable by handling requests one at a time. */
module Server {
  import opened Base
  import opened Types
  import opened Db
  import opened Validations
  import opened Http
  import opened GenerateRoute
  import opened RegisterRoute
  import opened LoginRoute
  import opened MeRoute
  import opened PaymentRoute
  import opened HistoryRoutes

  datatype Request =
    | GenerateRequest(session: Option<string>, generateBody: Result<GenerateBody>)
    | RegisterRequest(registerBody: Result<RegisterBody>)
    | LoginRequest(loginBody: Result<LoginBody>)
    | MeRequest(session: Option<string>)
    | VerifyPaymentRequest(session: Option<string>, paymentBody: Result<PaymentBody>)
    | ListHistoryRequest(session: Option<string>)
    | GetHistoryRequest(session: Option<string>, id: string)
    | DeleteHistoryRequest(session: Option<string>, id: string)

  function Handle(req: Request, s: Store, e: Env): Exchange
  {
    match req
    case GenerateRequest(session, body) => Generate(session, body, s, e)
    case RegisterRequest(body) => Register(body, s, e)
    case LoginRequest(body) => Login(body, s, e)
    case MeRequest(session) => Me(session, s)
    case VerifyPaymentRequest(session, body) => VerifyPayment(session, body, s, e)
    case ListHistoryRequest(session) => ListHistory(session, s)
    case GetHistoryRequest(session, id) => GetHistoryItem(session, id, s)
    case DeleteHistoryRequest(session, id) => DeleteHistoryItem(session, id, s)
  }

  /** Every free account is within its quota and every history within its cap. */
  ghost predicate Healthy(s: Store)
  {
    QuotaRespected(s.users) && HistoryCapped(s.generations)
  }

  lemma EmptyStoreHealthy()
    ensures Healthy(Store([], []))
  {
  }

  lemma GeneratePreservesCap(session: Option<string>, body: Result<GenerateBody>, s: Store, e: Env)
    requires HistoryCapped(s.generations)
    ensures HistoryCapped(Generate(session, body, s, e).store.generations)
  {
    var r := Generate(session, body, s, e);
    if r.response.status == 201 {
      GenerateSuccess(session, body, s, e);
      var g := Pending(session, body, e);
      forall v ensures |Owned(r.store.generations, v)| <= HISTORY_CAP {
        if v != g.userId {
          assert Owned(r.store.generations, v) == Owned(s.generations, v);
        }
      }
    }
  }

  /** One request, any kind: accounts only evolve forward (plan free to pro,
      counter up, nothing removed), and a healthy store stays healthy. */
  lemma HandleKeepsInvariants(req: Request, s: Store, e: Env)
    ensures Evolves(s.users, Handle(req, s, e).store.users)
    ensures Healthy(s) ==> Healthy(Handle(req, s, e).store)
  {
    match req
    case GenerateRequest(session, body) =>
      GenerateEvolves(session, body, s, e);
      if Healthy(s) {
        GeneratePreservesCap(session, body, s, e);
      }
    case RegisterRequest(body) =>
    case LoginRequest(body) =>
    case MeRequest(session) =>
    case VerifyPaymentRequest(session, body) =>
    case ListHistoryRequest(session) =>
    case GetHistoryRequest(session, id) =>
    case DeleteHistoryRequest(session, id) =>
      if Healthy(s) && SignedIn(session) {
        DeletePreservesCap(s, id, session.value);
      }
  }

  /** A request together with the outside world it meets. */
  datatype Call = Call(request: Request, env: Env)

  /** Handles the calls one after the other. */
  function Run(s: Store, calls: seq<Call>): Store
    decreases |calls|
  {
    if |calls| == 0 then s
    else Run(Handle(calls[0].request, s, calls[0].env).store, calls[1..])
  }

  /** Handled one at a time, no sequence of requests ever moves an account
      from pro to free, lowers a counter, removes an account, lets a free
      account pass 10 generations or a history pass 100 records. */
  lemma {:induction false} RunKeepsInvariants(s: Store, calls: seq<Call>)
    ensures Evolves(s.users, Run(s, calls).users)
    ensures Healthy(s) ==> Healthy(Run(s, calls))
    decreases |calls|
  {
    if |calls| > 0 {
      var s' := Handle(calls[0].request, s, calls[0].env).store;
      HandleKeepsInvariants(calls[0].request, s, calls[0].env);
      RunKeepsInvariants(s', calls[1..]);
      EvolvesTransitive(s.users, s'.users, Run(s', calls[1..]).users);
    }
  }

  /** Registering and then signing in with the same email and password
      succeeds for the new account, given a password check that accepts the
      hash of the password. */
  lemma RegisterThenLogin(b: RegisterBody, s: Store, e1: Env, e2: Env)
    requires Register(Ok(b), s, e1).response.status == 201
    requires e2.isEmail(b.email) && e2.verifyPassword(b.password, e1.hashPassword(b.password))
    ensures Login(Ok(LoginBody(b.email, b.password)), Register(Ok(b), s, e1).store, e2).response
            == Response(200, AccountBody(AccountView(e1.freshId, b.email, b.name, Free, 0)), Some(e2.createToken(e1.freshId)))
  {
    var s' := Register(Ok(b), s, e1).store;
    assert s'.users == s.users + [NewAccount(b, e1)];
    FindUserIsFirst(s'.users, ByEmail(b.email), |s.users|);
  }

  /** A newly registered account, when its id is new to the store, is what
      the current-user endpoint shows for it: free, no generations. */
  lemma RegisterThenMe(b: RegisterBody, s: Store, e: Env)
    requires Register(Ok(b), s, e).response.status == 201
    requires e.freshId != "" && forall j :: 0 <= j < |s.users| ==> s.users[j].id != e.freshId
    ensures Me(Some(e.freshId), Register(Ok(b), s, e).store).response
            == Response(200, ProfileBody(PublicUser(e.freshId, b.email, b.name, Free, 0, e.now)), None)
  {
    var s' := Register(Ok(b), s, e).store;
    assert s'.users == s.users + [NewAccount(b, e)];
    FindUserIsFirst(s'.users, ById(e.freshId), |s.users|);
  }

  /** After a verified payment the account is pro, and whatever requests
      follow, handled one at a time, a generate request from it is never
      refused for quota. */
  lemma UpgradeLiftsQuota(session: Option<string>, pay: Result<PaymentBody>, s: Store, e1: Env,
                            calls: seq<Call>, body: Result<GenerateBody>, e2: Env)
    requires SignedIn(session) && GetUserById(s, session.value).Some?
    requires pay.Ok? && Complete(pay.value) && Genuine(pay.value, e1)
    ensures VerifyPayment(session, pay, s, e1).response.status == 200
    ensures Generate(session, body, Run(VerifyPayment(session, pay, s, e1).store, calls), e2).response.status != 429
  {
    var uid := session.value;
    var paid := VerifyPayment(session, pay, s, e1).store;
    var i := FindUser(s.users, ById(uid)).value;
    assert paid.users[i].plan == Pro && paid.users[i].id == uid;
    var later := Run(paid, calls).users;
    RunKeepsInvariants(paid, calls);
    assert forall j :: 0 <= j < i ==> paid.users[j].id == s.users[j].id;
    FindUserIsFirst(later, ById(uid), i);
  }

}

=== FILE: types.dfy ===
/** The records of types/index.ts. */
module Types {
  import opened Base

  datatype Plan = Free | Pro

  /** The six tones a generation request may ask for, in the order the
      validation schema lists them. */
  datatype Tone = Professional | Casual | Humorous | Inspirational | Educational | Persuasive

  /** The literal strings of the tone enum, in schema order. */
  const TONE_NAMES: seq<string> :=
    ["professional", "casual", "humorous", "inspirational", "educational", "persuasive"]

  function ToneName(t: Tone): string
  {
    match t
    case Professional => "professional"
    case Casual => "casual"
    case Humorous => "humorous"
    case Inspirational => "inspirational"
    case Educational => "educational"
    case Persuasive => "persuasive"
  }

  /** Reads a tone literal; `None` for any other string. */
  function ParseTone(s: string): (r: Option<Tone>)
    ensures r.Some? <==> s in TONE_NAMES
    ensures r.Some? ==> ToneName(r.value) == s
  {
    if s == "professional" then Some(Professional)
    else if s == "casual" then Some(Casual)
    else if s == "humorous" then Some(Humorous)
    else if s == "inspirational" then Some(Inspirational)
    else if s == "educational" then Some(Educational)
    else if s == "persuasive" then Some(Persuasive)
    else None
  }

  /** Every tone's name is one of the enum literals and reads back as that tone. */
  lemma ToneRoundTrip(t: Tone)
    ensures ToneName(t) in TONE_NAMES
    ensures ParseTone(ToneName(t)) == Some(t)
  {
  }

  datatype User = User(
    id: string,
    email: string,
    name: string,
    passwordHash: string,
    createdAt: string,
    plan: Plan,
    generationsCount: nat)

  /** The user as the current-user endpoint shows it: everything but the hash. */
  datatype PublicUser = PublicUser(
    id: string,
    email: string,
    name: string,
    plan: Plan,
    generationsCount: nat,
    createdAt: string)

  datatype BlogSection = BlogSection(heading: string, content: string)

  datatype BlogPost = BlogPost(
    title: string,
    metaDescription: string,
    intro: string,
    sections: seq<BlogSection>,
    conclusion: string,
    tags: seq<string>)

  datatype TwitterThread = TwitterThread(tweets: seq<string>)

  datatype InstagramCaption = InstagramCaption(caption: string, hashtags: seq<string>)

  datatype LinkedInPost = LinkedInPost(content: string)

  datatype FacebookAd = FacebookAd(headline: string, primaryText: string, cta: string)

  datatype GoogleAd = GoogleAd(headlines: seq<string>, descriptions: seq<string>)

  /** The six-format document the language model returns. Nothing checks the
      list lengths or text limits the prompt asks for. */
  datatype GeneratedContent = GeneratedContent(
    blogPost: BlogPost,
    twitterThread: TwitterThread,
    instagramCaption: InstagramCaption,
    linkedinPost: LinkedInPost,
    facebookAd: FacebookAd,
    googleAd: GoogleAd)

  datatype ContentGeneration = ContentGeneration(
    id: string,
    userId: string,
    prompt: string,
    tone: Tone,
    audience: string,
    content: GeneratedContent,
    createdAt: string)

  /** One line of a user's history listing. */
  datatype GenerationSummary = GenerationSummary(
    id: string,
    prompt: string,
    tone: Tone,
    audience: string,
    blogTitle: string,
    createdAt: string)

}

=== FILE: validations.dfy ===
/** The request schemas of lib/validations.ts. A schema check yields every
    issue, field by field in schema order; a route reports the first one.
    The email syntax check is the uninterpreted `isEmail`. */
module Validations {
  import opened Base
  import opened Types

  const PROMPT_MIN: nat := 10
  const PROMPT_MAX: nat := 1000
  const AUDIENCE_MIN: nat := 3
  const AUDIENCE_MAX: nat := 200
  const NAME_MIN: nat := 2
  const NAME_MAX: nat := 50
  const PASSWORD_MIN: nat := 8
  const PASSWORD_MAX: nat := 100
  const LOGIN_PASSWORD_MIN: nat := 1

  const PROMPT_TOO_SHORT := "Prompt must be at least 10 characters"
  const PROMPT_TOO_LONG := "Prompt must be at most 1000 characters"
  const BAD_TONE := "Please select a valid tone"
  const AUDIENCE_TOO_SHORT := "Please specify your target audience"
  const AUDIENCE_TOO_LONG := "Audience description is too long"
  const NAME_TOO_SHORT := "Name must be at least 2 characters"
  const NAME_TOO_LONG := "Name must be at most 50 characters"
  const BAD_EMAIL := "Please enter a valid email address"
  const PASSWORD_TOO_SHORT := "Password must be at least 8 characters"
  const PASSWORD_TOO_LONG := "Password is too long"
  const PASSWORD_REQUIRED := "Password is required"

  datatype GenerateBody = GenerateBody(prompt: string, tone: string, audience: string)
  datatype GenerateInput = GenerateInput(prompt: string, tone: Tone, audience: string)
  datatype RegisterBody = RegisterBody(name: string, email: string, password: string)
  datatype LoginBody = LoginBody(email: string, password: string)

  /** `z.string().min(lo, tooShort)`. */
  function MinIssues(s: string, lo: nat, tooShort: string): seq<string>
  {
    if |s| < lo then [tooShort] else []
  }

  /** `z.string().min(lo, tooShort).max(hi, tooLong)`: both checks run. */
  function LengthIssues(s: string, lo: nat, tooShort: string, hi: nat, tooLong: string): seq<string>
  {
    MinIssues(s, lo, tooShort) + (if |s| > hi then [tooLong] else [])
  }

  /** `z.string().email(...)`. */
  function EmailIssues(s: string, isEmail: string -> bool): seq<string>
  {
    if isEmail(s) then [] else [BAD_EMAIL]
  }

  /** `z.enum([...tones], { message })`. */
  function ToneIssues(s: string): seq<string>
  {
    if ParseTone(s).Some? then [] else [BAD_TONE]
  }

  function GenerateIssues(b: GenerateBody): seq<string>
  {
    LengthIssues(b.prompt, PROMPT_MIN, PROMPT_TOO_SHORT, PROMPT_MAX, PROMPT_TOO_LONG)
    + ToneIssues(b.tone)
    + LengthIssues(b.audience, AUDIENCE_MIN, AUDIENCE_TOO_SHORT, AUDIENCE_MAX, AUDIENCE_TOO_LONG)
  }

  function RegisterIssues(b: RegisterBody, isEmail: string -> bool): seq<string>
  {
    LengthIssues(b.name, NAME_MIN, NAME_TOO_SHORT, NAME_MAX, NAME_TOO_LONG)
    + EmailIssues(b.email, isEmail)
    + LengthIssues(b.password, PASSWORD_MIN, PASSWORD_TOO_SHORT, PASSWORD_MAX, PASSWORD_TOO_LONG)
  }

  function LoginIssues(b: LoginBody, isEmail: string -> bool): seq<string>
  {
    EmailIssues(b.email, isEmail) + MinIssues(b.password, LOGIN_PASSWORD_MIN, PASSWORD_REQUIRED)
  }

  /** `generateSchema.safeParse` followed by `issues[0].message` on failure. */
  function ValidateGenerate(b: GenerateBody): (r: Result<GenerateInput>)
    ensures r.Ok? <==> PROMPT_MIN <= |b.prompt| <= PROMPT_MAX && b.tone in TONE_NAMES
                       && AUDIENCE_MIN <= |b.audience| <= AUDIENCE_MAX
    ensures r.Ok? ==> r.value.prompt == b.prompt && ToneName(r.value.tone) == b.tone
                      && r.value.audience == b.audience
    // the first failing field, in the order prompt, tone, audience, decides the message
    ensures |b.prompt| < PROMPT_MIN ==> r == Err(PROMPT_TOO_SHORT)
    ensures |b.prompt| > PROMPT_MAX ==> r == Err(PROMPT_TOO_LONG)
    ensures PROMPT_MIN <= |b.prompt| <= PROMPT_MAX && b.tone !in TONE_NAMES ==> r == Err(BAD_TONE)
    ensures PROMPT_MIN <= |b.prompt| <= PROMPT_MAX && b.tone in TONE_NAMES ==>
              && (|b.audience| < AUDIENCE_MIN ==> r == Err(AUDIENCE_TOO_SHORT))
              && (|b.audience| > AUDIENCE_MAX ==> r == Err(AUDIENCE_TOO_LONG))
  {
    var issues := GenerateIssues(b);
    if |issues| == 0 then Ok(GenerateInput(b.prompt, ParseTone(b.tone).value, b.audience))
    else Err(issues[0])
  }

  function ValidateRegister(b: RegisterBody, isEmail: string -> bool): (r: Result<RegisterBody>)
    ensures r.Ok? <==> NAME_MIN <= |b.name| <= NAME_MAX && isEmail(b.email)
                       && PASSWORD_MIN <= |b.password| <= PASSWORD_MAX
    ensures r.Ok? ==> r.value == b
    // the first failing field, in the order name, email, password, decides the message
    ensures |b.name| < NAME_MIN ==> r == Err(NAME_TOO_SHORT)
    ensures |b.name| > NAME_MAX ==> r == Err(NAME_TOO_LONG)
    ensures NAME_MIN <= |b.name| <= NAME_MAX && !isEmail(b.email) ==> r == Err(BAD_EMAIL)
    ensures NAME_MIN <= |b.name| <= NAME_MAX && isEmail(b.email) ==>
              && (|b.password| < PASSWORD_MIN ==> r == Err(PASSWORD_TOO_SHORT))
              && (|b.password| > PASSWORD_MAX ==> r == Err(PASSWORD_TOO_LONG))
  {
    var issues := RegisterIssues(b, isEmail);
    if |issues| == 0 then Ok(b) else Err(issues[0])
  }

  function ValidateLogin(b: LoginBody, isEmail: string -> bool): (r: Result<LoginBody>)
    ensures r.Ok? <==> isEmail(b.email) && |b.password| >= LOGIN_PASSWORD_MIN
    ensures r.Ok? ==> r.value == b
    ensures !isEmail(b.email) ==> r == Err(BAD_EMAIL)
    ensures isEmail(b.email) && |b.password| == 0 ==> r == Err(PASSWORD_REQUIRED)
  {
    var issues := LoginIssues(b, isEmail);
    if |issues| == 0 then Ok(b) else Err(issues[0])
  }

  /** A login password has no upper bound: any non-empty password, however
      long, passes the schema. */
  lemma LoginPasswordUnbounded(email: string, password: string, isEmail: string -> bool)
    requires isEmail(email) && |password| > PASSWORD_MAX
    ensures ValidateLogin(LoginBody(email, password), isEmail).Ok?
    ensures ValidateRegister(RegisterBody("Ada", email, password), isEmail) == Err(PASSWORD_TOO_LONG)
  {
  }

}
